=== FILE: README.md ===
# Kanban board: task list model

A Dafny model of the logic of a small kanban board. Tasks are records
`{id, title, status}`, and the status is one of the three column labels
"To Do", "Doing" and "Done". Two parts own the task list:

- the **backend** (`backend/app.py`) holds the list in memory. It creates
  tasks (an empty title gets 400), patches the first task with a given id
  (404 if none), and deletes every task with a given id (404 if none);
- the **client** keeps a cached copy of the list. It comes in two near-duplicate
  variants: the prompt-driven board (`frontend/src/App.js`) and the
  drag-and-drop board (`frontend/src/frontend.jsx`). The drag-and-drop board
  renders only the cards and the column drop targets: no input and no
  button, so its create, move, edit and delete handlers are never reached
  from its own page, and its new-task title always stays "". They are
  modelled as written. After each successful
  request the client replaces its list with a pure transformation of the old
  one: create appends, move and edit map over the list, delete filters it. On
  a failed request the list stays as it was. The view shows each column by
  filtering the list on `status`.

Every operation is a pure function on `seq<Task>`. A request's result is an
explicit input: `Outcome` is a 2xx answer with its body, another HTTP status,
or a thrown network error. The random id the server draws on create is a
parameter, constrained to the drawn range [100000, 1000000). Each client
operation returns its new state together with the request it sent, if any, so
"sends nothing" can be stated.

Modules:

- `Tasks` (tasks.dfy): the record, the status labels, first match, and the
  generic filter and map that every list update is built from.
- `Backend` (backend.dfy): the three handlers and their invariants.
- `Text` (text.dfy): JavaScript's `trim` (section 22.1.3.32 of ECMA-262).
- `Client` (client.dfy): the client state, requests, outcomes, list updates
  and the column view.
- `App` (app.dfy): the prompt-driven board.
- `DragDrop` (dragdrop.dfy): the drag-and-drop board.
- `Api` (api.dfy): the client's requests as the backend handles them. It
  proves when the cached list and the server's list stay equal.

Three facts about the code shape the model:

- Ids are drawn at random and never checked, so a repeated id is modelled.
  Update touches only the first task with the id, while the client's move and
  edit change every task with it (`Api.RepeatedIdMoveDiverges`).
- A successful edit replaces every task with that id by a copy of the first
  one, carrying the new title.
- On the server, only create refuses an empty title; update stores one
  (`Backend.UpdateAcceptsEmptyTitle`). On the client, the prompt-driven board
  refuses a blank new title and an empty edit answer before sending anything.

## Model

| member | source | states |
|---|---|---|
| Tasks.ParseStatus | backend/app.py:23-26 | exactly the three labels "To Do", "Doing", "Done" are accepted, and a parsed status reads back as its input |
| Tasks.ParseLabel | backend/app.py:23-26 | each of the three statuses parses back from its label |
| Tasks.FirstIndex | backend/app.py:60-61 | none exactly when no task has the id; otherwise the position of the first task with that id |
| Tasks.Find | frontend/src/App.js:79 | none exactly when no task has the id; otherwise the first task with that id |
| Tasks.Without | backend/app.py:76 | no task with the id remains, every other task keeps its number of occurrences, and the list is unchanged exactly when the id is absent |
| Tasks.WithoutAppend | frontend/src/App.js:110 | removal by id works piecewise over a concatenation, so the remaining tasks keep their relative order |
| Tasks.WithoutIdempotent | frontend/src/frontend.jsx:89 | removing the same id twice is removing it once |
| Backend.Create | backend/app.py:48-55 | 400 exactly when the title is empty, with no new list; otherwise exactly one task is appended with the title, the status label and an id in [100000, 1000000), and the earlier tasks are unchanged |
| Backend.Update | backend/app.py:58-67 | 404 exactly when no task has the id; otherwise only the first task with that id is replaced, by a task that has the same id and carries the sent title and status |
| Backend.UpdateKeepsAbsentFields | backend/app.py:62-65 | a field the update does not carry keeps its old value, and every other position is unchanged |
| Backend.UpdateLeavesLaterDuplicates | backend/app.py:60-66 | a later task that repeats the id is left as it was |
| Backend.UpdateIdempotent | backend/app.py:58-66 | sending the same update twice leaves the list as sending it once |
| Backend.Delete | backend/app.py:71-78 | 404 exactly when no task has the id; otherwise the list shrinks, no task with the id remains, every other task is kept, and the result is the shared removal `Tasks.Without`, which keeps the survivors in order |
| Backend.DeleteKeepsOrder | backend/app.py:76 | deleting from a concatenation deletes from each part, so the remaining tasks keep their original order |
| Backend.DeleteTwiceNotFound | backend/app.py:74-78 | a second delete of the same id answers 404 |
| Backend.StatusesStayValid | backend/app.py:23-40 | every stored status is one of the three labels: true of the initial list and kept by create, update and delete |
| Backend.UpdateAcceptsEmptyTitle | backend/app.py:50-63 | on any list holding the id, update stores an empty title, while create refuses one |
| Text.Trim | frontend/src/App.js:20 | the result is a contiguous piece of the input, it neither starts nor ends with white space, and everything cut away is white space |
| Text.TrimEmptyIff | frontend/src/App.js:20-25 | a title trims to empty exactly when it is all white space |
| Text.TrimIdempotent | frontend/src/App.js:20 | trimming twice is trimming once |
| Client.Append | frontend/src/App.js:47 | the list grows by one, keeps its prefix, and ends with the server's record |
| Client.SetStatus | frontend/src/App.js:68 | same length; ids and titles unchanged; status replaced exactly on the tasks with the id |
| Client.ReplaceMatching | frontend/src/App.js:94 | same length; the tasks with the id are replaced by the edited record and all others are unchanged |
| Client.Column | frontend/src/App.js:127-128 | a column holds only tasks with its status, and each of them as often as the list does; its order is the list's order (`Client.ColumnAppend`) |
| Client.ColumnAppend | frontend/src/App.js:127-128 | the column of a concatenation is the concatenation of the columns, so a column keeps the list's order and a created task shows last under "To Do" |
| Client.ColumnsPartition | frontend/src/frontend.jsx:97-118 | when all statuses are valid, the three columns together hold exactly the list, each task once, and their sizes add up to the list length |
| Client.ShownInOwnColumn | frontend/src/App.js:123-128 | a task appears in a column exactly when its status is that column's label |
| Client.HiddenWhenInvalid | frontend/src/frontend.jsx:117-118 | a task whose status is not a label appears in no column |
| App.Validate | frontend/src/App.js:20-35 | empty-title rejection exactly for an all-white-space input; duplicate rejection exactly when the trimmed input equals a stored title |
| App.Create | frontend/src/App.js:18-55 | a blank or duplicate title sends nothing and changes nothing; otherwise the untrimmed input is posted as "To Do"; on success the server's record is appended and the input cleared; on failure nothing changes |
| App.Move | frontend/src/App.js:58-75 | sends a status-only update; on success only the status of the tasks with the id changes; on failure nothing changes |
| App.Edit | frontend/src/App.js:78-101 | an unknown id sends nothing; otherwise the first match is sent with the new title, and on success every task with the id becomes that record; on failure nothing changes |
| App.Remove | frontend/src/App.js:104-117 | sends a delete; on success no task with the id remains and the others are kept in their order (the shared removal `Tasks.Without`); on failure nothing changes |
| App.EditButton | frontend/src/App.js:154-166 | asks for an edit exactly for a known id and a non-empty answer, and passes the trimmed answer |
| App.MoveButton | frontend/src/App.js:172-186 | asks for a move exactly for a known id and an answer that is one of the three labels |
| App.DeleteButton | frontend/src/App.js:192-203 | asks for a delete exactly for a known id and a confirmed dialog |
| App.Run | frontend/src/App.js:154-203 | an idle button changes and sends nothing; a move sends the status patch for its id and on success sets that status on every task with the id; a delete sends the delete for its id and on success leaves the list without it; an edit sends exactly when the id is known and on success replaces every task with the id by the first one with the new title; a failed request changes nothing |
| App.ButtonsIssueButtonCommands | frontend/src/App.js:154-203 | the move button only ever asks for one of the three column labels; the edit and delete buttons never ask for a move |
| App.ButtonsKeepStatusesValid | frontend/src/App.js:172-186 | any command the buttons can issue keeps every cached status one of the three labels, whatever the server answers |
| App.CreateKeepsStatusesValid | frontend/src/App.js:41-47 | create keeps the statuses valid when the server's record has a valid status |
| App.BlankEditAnswerClearsTitle | frontend/src/App.js:162-165 | a whitespace-only answer passes the emptiness check and becomes an empty title |
| App.EditButtonChecked | frontend/src/App.js:162-165 | corrected edit button: the check runs after trimming, so an edit never carries an empty title |
| App.CreateTrimmed | frontend/src/App.js:20-48 | corrected create: same checks, but the trimmed title is posted |
| App.CreateTrimmedKeepsTitlesDistinct | frontend/src/App.js:27-35 | with the trimmed title posted and echoed by the server, no two cached tasks share a title |
| App.UntrimmedPostDuplicates | frontend/src/App.js:28-41 | as written, input " A" passes the check against a stored " A", and the cache ends with two tasks titled " A" |
| DragDrop.Create | frontend/src/frontend.jsx:20-35 | always posts the input, the empty string included, as "To Do"; on success it appends the server's record and clears the input; otherwise nothing changes |
| DragDrop.Move | frontend/src/frontend.jsx:38-59 | an unknown id sends nothing; otherwise id, title and new status are sent, and on success only the status of the tasks with the id changes |
| DragDrop.Edit | frontend/src/frontend.jsx:62-81 | an unknown id sends nothing; otherwise the first match is sent with the new title, and on success every task with the id becomes that record; the new-task input is never touched |
| DragDrop.Remove | frontend/src/frontend.jsx:84-93 | sends a delete; on success no task with the id remains and the others are kept in their order (the shared removal `Tasks.Without`); the new-task input is never touched |
| DragDrop.DropDoesNotMove | frontend/src/frontend.jsx:109-113 | whatever id was dragged, a drop leaves the list unchanged and the dropped task outside the target column, where a successful move would have placed it |
| DragDrop.MoveCanHideTask | frontend/src/frontend.jsx:38-55 | a move to a status that is not a label succeeds locally and the task then appears in no column |
| Api.UpdateOf | backend/app.py:35-37 | a PUT body parses exactly when its status is a label; a status-only body carries no title, and a whole-record body carries its title |
| Api.Serve | backend/app.py:48-78 | create fails exactly for an empty title or an invalid status; update fails exactly for an unparsable body or an absent id; delete fails exactly for an absent id |
| Api.AppCreateCoherent | frontend/src/App.js:37-48 | a title that passes the client's checks is never refused by the server, and afterwards the cache equals the server's list |
| Api.DragDropEmptyCreateRefused | frontend/src/frontend.jsx:20-31 | the unvalidated empty create reaches the server, gets 400, and the cache stays unchanged |
| Api.MoveCoherent | frontend/src/App.js:58-68 | with distinct ids, a move to any status keeps the cache equal to the server's list (a non-label status is refused with 422 and both lists stay) |
| Api.EditCoherent | frontend/src/App.js:78-94 | with distinct ids, an edit of a known id keeps the cache equal to the server's list, also when a stored status that is not a label makes the server refuse it |
| Api.DeleteCoherent | frontend/src/App.js:104-110 | even with repeated ids, a delete keeps the cache equal to the server's list |
| Api.ButtonsCoherent | frontend/src/App.js:154-203 | with distinct ids, every command, and so every one the buttons issue, keeps the cache equal to the server's list |
| Api.RepeatedIdMoveDiverges | backend/app.py:60-66 | with a repeated id, the server moves only the first task and the client moves both |
| Api.PaddedTitleCreatedAgain | frontend/src/App.js:28-41 | as written, a title with surrounding white space (" A") typed on a board holding only copies of it is posted anyway; server and cache both append another copy, so after two submissions on an empty board both sides hold two tasks with that title |
| Api.TrimmedCreateKeepsTitlesDistinct | frontend/src/App.js:27-41 | with the corrected create, titles stay distinct on both sides and the lists stay equal |

## Findings

| source | as written | input that shows it | evidently intended | confidence | as-written member | corrected member |
|---|---|---|---|---|---|---|
| frontend/src/App.js:41 | the request posts the untrimmed input, but the duplicate check (lines 28-30) compares the trimmed input with the stored titles | empty board; submit " A", then submit " A" again: the second check compares "A" with " A" and passes | post the trimmed title, so the exact-match duplicate check holds | medium, not executed | Api.PaddedTitleCreatedAgain | App.CreateTrimmed |
| frontend/src/App.js:163-165 | the emptiness check runs on the untrimmed answer, and the trim comes after it | known id, answer "   ": the edit is sent with title "" | check the trimmed answer, as create does | medium, not executed | App.BlankEditAnswerClearsTitle | App.EditButtonChecked |

## Left out

- HTTP, `fetch`, JSON, CORS and the uvicorn server are left out. Each response is an `Outcome` input, and the backend's answer is reduced to its list and reported task. The 201/204 success codes and the update's message text are not modelled.
- `GET /tasks` and the client's initial load (replace-all through `useEffect`) are left out. Both copy the whole list and state nothing further.
- `random.randrange` is a foreign call. The drawn id is a parameter in [100000, 1000000).
- Pydantic parsing is left out, except that a status outside the three labels gets 422 and a PUT body's extra `id` field is ignored.
- React rendering, styles, drag start, `alert`, `prompt`, `confirm` and console logging are left out. Prompt and confirm answers are inputs; alerts and logs have no effect on state.
- `parseInt` of the id prompt is left out. The id arrives already parsed, and `None` stands for a cancelled or empty prompt.
- Stale closures and interleaved requests are left out. Each operation reads the list as it stands and runs to completion before the next one.
- In frontend.jsx, create, edit and delete catch nothing, so a thrown error becomes an unhandled rejection. The model states only that the list stays unchanged, as it does for every failure.
- Python's in-place mutation and object sharing on create and update are modelled as values. The list contents after each handler are the same.
- Text.Trim: characters are Unicode scalar values, not JavaScript's UTF-16 code units. Trim's whitespace set is the same either way.
- DragDrop.Drop: carries no contract of its own. It returns the state unchanged with no request, and DragDrop.DropDoesNotMove states that against move.

=== FILE: api.dfy ===
/** The client's requests as the backend receives them, and what that says
    about the client's cached list and the server's list staying equal.
    Request parsing is reduced to its one observable rule: a status that is not
    one of the three labels is refused with 422 before any handler runs; the
    record id a whole-task body carries is ignored, as the update body has no
    id field. */
module Api {
  import opened Tasks
  import opened Client
  import B = Backend
  import App
  import DragDrop
  import Text

  /** What a successful request answers. */
  datatype Reply = Created(task: Task) | Updated(task: Task) | NoContent

  datatype Served = Served(tasks: seq<Task>, reply: Reply)

  /** The update body a PUT from the client parses to. */
  function UpdateOf(body: PutBody): (r: Option<B.TaskUpdate>)
    ensures body.StatusPatch? ==> (r.Some? <==> body.status in Columns)
    ensures body.WholeTask? ==> (r.Some? <==> body.task.status in Columns)
    ensures r.Some? && body.StatusPatch? ==> r.value.title.None?
    ensures r.Some? && body.WholeTask? ==> r.value.title == Some(body.task.title)
    ensures r.Some? ==> r.value.status.Some? && r.value.status.value.Label() == (match body case StatusPatch(s) => s case WholeTask(t) => t.status)
  {
    match body
    case StatusPatch(s) =>
      (match ParseStatus(s) case None => None case Some(st) => Some(B.TaskUpdate(None, Some(st))))
    case WholeTask(t) =>
      (match ParseStatus(t.status) case None => None case Some(st) => Some(B.TaskUpdate(Some(t.title), Some(st))))
  }

  /** The server handling one request against its list `server`; `newId` is
      the id a create would draw. */
  function Serve(server: seq<Task>, req: Request, newId: int): (r: B.Result<Served>)
    requires B.MinId <= newId < B.MaxId
    ensures req.Post? ==> (r.Err? <==> req.title == "" || req.status !in Columns)
    ensures req.Put? ==> (r.Err? <==> UpdateOf(req.body).None? || !HasId(server, req.id))
    ensures req.Delete? ==> (r.Err? <==> !HasId(server, req.id))
    ensures r.Ok? && req.Delete? ==> r.value.tasks == Without(server, req.id)
  {
    match req
    case Post(title, status) =>
      (match ParseStatus(status)
       case None => B.Err(B.Unprocessable)
       case Some(st) =>
         match B.Create(server, title, st, newId)
         case Err(e) => B.Err(e)
         case Ok(c) => B.Ok(Served(c.tasks, Created(c.task))))
    case Put(id, body) =>
      (match UpdateOf(body)
       case None => B.Err(B.Unprocessable)
       case Some(u) =>
         match B.Update(server, id, u)
         case Err(e) => B.Err(e)
         case Ok(c) => B.Ok(Served(c.tasks, Updated(c.task))))
    case Delete(id) =>
      (match B.Delete(server, id)
       case Err(e) => B.Err(e)
       case Ok(s) => B.Ok(Served(s, NoContent)))
  }

  /** The outcome the client sees for a move, edit or delete. */
  function Answer(r: B.Result<Served>): (o: Outcome<()>)
    ensures o.Ok? <==> r.Ok?
    ensures r.Err? ==> o == HttpError(r.error.Code())
  {
    match r
    case Ok(_) => Ok(())
    case Err(e) => HttpError(e.Code())
  }

  /** The outcome the client sees for a create: the record the server stored. */
  function CreateAnswer(r: B.Result<Served>): (o: Outcome<Task>)
    ensures o.Ok? <==> r.Ok? && r.value.reply.Created?
    ensures o.Ok? ==> o.body == r.value.reply.task
  {
    match r
    case Ok(Served(_, Created(t))) => Ok(t)
    case Ok(_) => HttpError(500)
    case Err(e) => HttpError(e.Code())
  }

  /** A title that passes the board's own checks is never refused by the
      server, and after the round trip the cached list equals the server's. */
  lemma AppCreateCoherent(v: View, newId: int)
    requires B.MinId <= newId < B.MaxId
    requires App.Validate(v).None?
    ensures var res := Serve(v.tasks, Post(v.input, "To Do"), newId);
            && res.Ok?
            && App.Create(v, CreateAnswer(res)).view.tasks == res.value.tasks
  {
    var res := Serve(v.tasks, Post(v.input, "To Do"), newId);
    assert v.input != "";
    assert res.Ok?;
    var r := App.Create(v, CreateAnswer(res));
    assert r.view.tasks == v.tasks + [res.value.reply.task];
  }

  /** The unvalidated create sends an empty title too; the server refuses it
      with 400 and the cached list is left as it was. As the drag-and-drop
      page renders no input, "" is the only title its create could send. */
  lemma DragDropEmptyCreateRefused(v: View, newId: int)
    requires B.MinId <= newId < B.MaxId
    requires v.input == ""
    ensures var res := Serve(v.tasks, DragDrop.Create(v, NetworkError).sent.value, newId);
            && res == B.Err(B.BadRequest)
            && DragDrop.Create(v, CreateAnswer(res)).view == v
  {
  }

  /** With distinct ids, a move leaves the cached list equal to the server's
      list, whether the server accepts or refuses it; a status that is not a
      column label is refused with 422 and both lists stay as they were. */
  lemma MoveCoherent(v: View, id: int, status: string, newId: int)
    requires B.MinId <= newId < B.MaxId
    requires UniqueIds(v.tasks)
    ensures var res := Serve(v.tasks, Put(id, StatusPatch(status)), newId);
            App.Move(v, id, status, Answer(res)).view.tasks == if res.Ok? then res.value.tasks else v.tasks
  {
  }

  /** With distinct ids, an edit leaves the cached list equal to the server's
      list, whether the server accepts or refuses it. A stored status that is
      not a label makes the server refuse the whole-record body with 422, and
      the cache then keeps its list too. */
  lemma EditCoherent(v: View, id: int, title: string, newId: int)
    requires B.MinId <= newId < B.MaxId
    requires UniqueIds(v.tasks) && HasId(v.tasks, id)
    ensures var sent := App.Edit(v, id, title, NetworkError).sent.value;
            var res := Serve(v.tasks, sent, newId);
            App.Edit(v, id, title, Answer(res)).view.tasks == if res.Ok? then res.value.tasks else v.tasks
  {
  }

  /** With distinct ids, every command, and so every one the bottom-bar
      buttons issue, leaves the cached list equal to the server's list,
      whether the server accepts or refuses it. */
  lemma ButtonsCoherent(v: View, c: App.Command, newId: int)
    requires B.MinId <= newId < B.MaxId
    requires UniqueIds(v.tasks)
    ensures var sent := App.Run(v, c, NetworkError).sent;
            sent.Some? ==>
              var res := Serve(v.tasks, sent.value, newId);
              App.Run(v, c, Answer(res)).view.tasks == if res.Ok? then res.value.tasks else v.tasks
  {
    match c
    case Idle =>
    case DoEdit(i, t) => if HasId(v.tasks, i) { EditCoherent(v, i, t, newId); }
    case DoMove(i, st) => MoveCoherent(v, i, st, newId);
    case DoRemove(i) => DeleteCoherent(v, i, newId);
  }

  /** Delete keeps the two lists equal even with repeated ids: both sides
      remove every task carrying the id. */
  lemma DeleteCoherent(v: View, id: int, newId: int)
    requires B.MinId <= newId < B.MaxId
    ensures var res := Serve(v.tasks, Delete(id), newId);
            App.Remove(v, id, Answer(res)).view.tasks == if res.Ok? then res.value.tasks else v.tasks
  {
  }

  /** With a repeated id the two lists part: the server moves only the first
      task carrying the id, the client moves both. */
  lemma RepeatedIdMoveDiverges(newId: int)
    requires B.MinId <= newId < B.MaxId
    ensures var v := View([Task(7, "a", "To Do"), Task(7, "b", "To Do")], "");
            var res := Serve(v.tasks, Put(7, StatusPatch("Done")), newId);
            && res.Ok?
            && res.value.tasks == [Task(7, "a", "Done"), Task(7, "b", "To Do")]
            && App.Move(v, 7, "Done", Answer(res)).view.tasks == [Task(7, "a", "Done"), Task(7, "b", "Done")]
  {
  }

  /** The duplicate-title check fails as written: a title with surrounding
      white space (" A", say) typed on a board whose tasks all carry exactly
      that title is posted anyway, and the server and the cache both append
      another copy. Starting from an empty board, typing it twice leaves two
      tasks with the same title on both sides. */
  lemma PaddedTitleCreatedAgain(tasks: seq<Task>, title: string, newId: int)
    requires B.MinId <= newId < B.MaxId
    requires Text.Trim(title) != [] && Text.Trim(title) != title
    requires forall i :: 0 <= i < |tasks| ==> tasks[i].title == title
    ensures var t := Task(newId, title, "To Do");
            var res := Serve(tasks, Post(title, "To Do"), newId);
            && res == B.Ok(Served(tasks + [t], Created(t)))
            && App.Create(View(tasks, title), CreateAnswer(res)).view == View(tasks + [t], "")
            && (|tasks| > 0 ==> !DistinctTitles(tasks + [t]))
  {
    PaddedPost(tasks, title, newId);
    PaddedPasses(tasks, title);
    var t := Task(newId, title, "To Do");
    if |tasks| > 0 {
      assert (tasks + [t])[0].title == (tasks + [t])[|tasks|].title;
    }
  }

  /** The server stores a non-empty title as posted, after the tasks it
      holds. */
  lemma PaddedPost(server: seq<Task>, title: string, newId: int)
    requires B.MinId <= newId < B.MaxId && title != ""
    ensures var t := Task(newId, title, "To Do");
            Serve(server, Post(title, "To Do"), newId) == B.Ok(Served(server + [t], Created(t)))
  {
    assert ParseStatus("To Do") == Some(ToDo);
  }

  /** Stored copies of a padded title do not stop the board from posting it
      again. */
  lemma PaddedPasses(tasks: seq<Task>, title: string)
    requires Text.Trim(title) != [] && Text.Trim(title) != title
    requires forall i :: 0 <= i < |tasks| ==> tasks[i].title == title
    ensures App.Validate(View(tasks, title)).None?
  {
    Text.TrimEmptyIff(title);
  }

  /** The corrected create, against the server: titles stay distinct on both
      sides, and the lists stay equal. */
  lemma TrimmedCreateKeepsTitlesDistinct(v: View, newId: int)
    requires B.MinId <= newId < B.MaxId
    requires DistinctTitles(v.tasks)
    requires App.Validate(v).None?
    ensures var res := Serve(v.tasks, Post(Text.Trim(v.input), "To Do"), newId);
            && res.Ok?
            && App.CreateTrimmed(v, CreateAnswer(res)).view.tasks == res.value.tasks
            && DistinctTitles(res.value.tasks)
  {
    var res := Serve(v.tasks, Post(Text.Trim(v.input), "To Do"), newId);
    assert res.Ok?;
    App.CreateTrimmedKeepsTitlesDistinct(v, CreateAnswer(res));
  }
}

=== FILE: app.dfy ===
/** The prompt-driven board (frontend/src/App.js): create with local
    validation, move, edit and delete against the server, the three bottom-bar
    buttons that read an id and an answer and pick the operation, and the
    create variant that posts the trimmed title. */
module App {
  import opened Tasks
  import opened Text
  import opened Client

  /** Why create refused before sending anything. */
  datatype Rejection = EmptyTitle | DuplicateTitle

  /** The checks create makes before sending: the trimmed input must be
      non-empty and must not equal the title of a task already shown. */
  function Validate(v: View): (r: Option<Rejection>)
    ensures r == Some(EmptyTitle) <==> AllWhiteSpace(v.input)
    ensures r == Some(DuplicateTitle) <==>
              !AllWhiteSpace(v.input) && exists i :: 0 <= i < |v.tasks| && v.tasks[i].title == Trim(v.input)
    ensures r.None? ==> Trim(v.input) != [] && forall i :: 0 <= i < |v.tasks| ==> v.tasks[i].title != Trim(v.input)
  {
    TrimEmptyIff(v.input);
    var clean := Trim(v.input);
    if clean == [] then Some(EmptyTitle)
    else if exists i :: 0 <= i < |v.tasks| && v.tasks[i].title == clean then Some(DuplicateTitle)
    else None
  }

  /** Create: a blank or duplicate title sends nothing and changes nothing;
      otherwise the input as typed (not trimmed) is posted with status
      "To Do", and on success the server's record is appended and the input
      cleared. */
  function Create(v: View, outcome: Outcome<Task>): (r: Step)
    ensures AllWhiteSpace(v.input) ==> r == Step(v, None)
    ensures (exists i :: 0 <= i < |v.tasks| && v.tasks[i].title == Trim(v.input)) ==> r == Step(v, None)
    ensures Validate(v).None? ==> r.sent == Some(Post(v.input, "To Do"))
    ensures Validate(v).None? && outcome.Ok? ==>
              && |r.view.tasks| == |v.tasks| + 1
              && r.view.tasks[..|v.tasks|] == v.tasks
              && r.view.tasks[|v.tasks|] == outcome.body
              && r.view.input == ""
    ensures !outcome.Ok? ==> r.view == v
  {
    if Validate(v).Some? then Step(v, None)
    else
      var sent := Some(Post(v.input, "To Do"));
      match outcome
      case Ok(task) => Step(View(Append(v.tasks, task), ""), sent)
      case _ => Step(v, sent)
  }

  /** Move: always sends a status-only update; on success every task carrying
      the id takes the new status, and nothing else changes. */
  function Move(v: View, id: int, newStatus: string, outcome: Outcome<()>): (r: Step)
    ensures r.sent == Some(Put(id, StatusPatch(newStatus)))
    ensures r.view.input == v.input && |r.view.tasks| == |v.tasks|
    ensures outcome.Ok? ==> forall i :: 0 <= i < |v.tasks| ==>
              && r.view.tasks[i].id == v.tasks[i].id
              && r.view.tasks[i].title == v.tasks[i].title
              && r.view.tasks[i].status == (if v.tasks[i].id == id then newStatus else v.tasks[i].status)
    ensures !outcome.Ok? ==> r.view == v
  {
    var sent := Some(Put(id, StatusPatch(newStatus)));
    if outcome.Ok? then Step(v.(tasks := SetStatus(v.tasks, id, newStatus)), sent)
    else Step(v, sent)
  }

  /** Edit: with no task carrying the id nothing is sent. Otherwise the first
      such task with the new title is sent whole, and on success every task
      carrying the id is replaced by that record. */
  function Edit(v: View, id: int, newTitle: string, outcome: Outcome<()>): (r: Step)
    ensures !HasId(v.tasks, id) ==> r == Step(v, None)
    ensures HasId(v.tasks, id) ==>
              var first := v.tasks[FirstIndex(v.tasks, id).value];
              && r.sent == Some(Put(id, WholeTask(Task(first.id, newTitle, first.status))))
              && (outcome.Ok? ==> |r.view.tasks| == |v.tasks| && forall i :: 0 <= i < |v.tasks| ==>
                    r.view.tasks[i] == if v.tasks[i].id == id then Task(id, newTitle, first.status) else v.tasks[i])
    ensures r.view.input == v.input
    ensures !outcome.Ok? ==> r.view == v
  {
    match Find(v.tasks, id)
    case None => Step(v, None)
    case Some(t) =>
      var edited := t.(title := newTitle);
      var sent := Some(Put(id, WholeTask(edited)));
      if outcome.Ok? then Step(v.(tasks := ReplaceMatching(v.tasks, id, edited)), sent)
      else Step(v, sent)
  }

  /** Delete: always sends; on success every task carrying the id is gone and
      the rest keep their order. */
  function Remove(v: View, id: int, outcome: Outcome<()>): (r: Step)
    ensures r.sent == Some(Delete(id))
    ensures r.view.input == v.input
    ensures outcome.Ok? ==> forall i :: 0 <= i < |r.view.tasks| ==> r.view.tasks[i].id != id
    ensures outcome.Ok? ==> forall t: Task :: t.id != id ==> multiset(r.view.tasks)[t] == multiset(v.tasks)[t]
    ensures outcome.Ok? ==> r.view.tasks == Without(v.tasks, id)
    ensures !outcome.Ok? ==> r.view == v
  {
    var sent := Some(Delete(id));
    if outcome.Ok? then Step(v.(tasks := Without(v.tasks, id)), sent)
    else Step(v, sent)
  }

  /** What a bottom-bar button asks for once its prompts are answered. */
  datatype Command = Idle | DoEdit(id: int, title: string) | DoMove(id: int, status: string) | DoRemove(id: int)

  /** The edit button. `id` is the parsed answer to the id prompt (`None` when
      it was cancelled or empty), `answer` the answer to the title prompt. An
      unknown id or an empty answer asks for nothing; otherwise the answer,
      trimmed, becomes the new title. */
  function EditButton(tasks: seq<Task>, id: Option<int>, answer: Option<string>): (r: Command)
    ensures r.DoEdit? <==> id.Some? && HasId(tasks, id.value) && answer.Some? && answer.value != ""
    ensures r.DoEdit? ==> r.id == id.value && r.title == Trim(answer.value)
    ensures !r.DoEdit? ==> r == Idle
  {
    if id.None? then Idle
    else
      match Find(tasks, id.value)
      case None => Idle
      case Some(t) =>
        if answer.None? || answer.value == "" then Idle
        else DoEdit(t.id, Trim(answer.value))
  }

  /** The move button: only one of the three column labels is passed on. */
  function MoveButton(tasks: seq<Task>, id: Option<int>, answer: Option<string>): (r: Command)
    ensures r.DoMove? <==> id.Some? && HasId(tasks, id.value) && answer.Some? && answer.value in Columns
    ensures r.DoMove? ==> r.id == id.value && r.status == answer.value
    ensures !r.DoMove? ==> r == Idle
  {
    if id.None? then Idle
    else
      match Find(tasks, id.value)
      case None => Idle
      case Some(t) =>
        if answer.None? || answer.value == "" || answer.value !in Columns then Idle
        else DoMove(t.id, answer.value)
  }

  /** The delete button: a known id and a confirmed dialog. */
  function DeleteButton(tasks: seq<Task>, id: Option<int>, confirmed: bool): (r: Command)
    ensures r.DoRemove? <==> id.Some? && HasId(tasks, id.value) && confirmed
    ensures r.DoRemove? ==> r.id == id.value
    ensures !r.DoRemove? ==> r == Idle
  {
    if id.None? then Idle
    else
      match Find(tasks, id.value)
      case None => Idle
      case Some(t) => if confirmed then DoRemove(t.id) else Idle
  }

  /** Carrying out a button's command. */
  function Run(v: View, c: Command, outcome: Outcome<()>): (r: Step)
    ensures c.Idle? ==> r == Step(v, None)
    ensures c.DoMove? || c.DoRemove? ==> r.sent.Some?
    ensures c.DoMove? ==> r.sent == Some(Put(c.id, StatusPatch(c.status)))
    ensures c.DoRemove? ==> r.sent == Some(Delete(c.id))
    ensures c.DoEdit? ==> (r.sent.Some? <==> HasId(v.tasks, c.id))
    ensures c.DoMove? && outcome.Ok? ==> r.view.tasks == SetStatus(v.tasks, c.id, c.status)
    ensures c.DoRemove? && outcome.Ok? ==> r.view.tasks == Without(v.tasks, c.id)
    ensures c.DoEdit? && outcome.Ok? && HasId(v.tasks, c.id) ==>
              r.view.tasks == ReplaceMatching(v.tasks, c.id, v.tasks[FirstIndex(v.tasks, c.id).value].(title := c.title))
    ensures !outcome.Ok? ==> r.view == v
  {
    match c
    case Idle => Step(v, None)
    case DoEdit(id, title) => Edit(v, id, title, outcome)
    case DoMove(id, status) => Move(v, id, status, outcome)
    case DoRemove(id) => Remove(v, id, outcome)
  }

  /** What the three buttons can ask for: a move only ever names one of the
      column labels. */
  predicate ButtonCommand(c: Command) {
    c.DoMove? ==> c.status in Columns
  }

  /** Every command the edit, move and delete buttons issue is a button
      command, and only the move button asks for a move. */
  lemma ButtonsIssueButtonCommands(tasks: seq<Task>, id: Option<int>, answer: Option<string>, confirmed: bool)
    ensures ButtonCommand(EditButton(tasks, id, answer))
    ensures ButtonCommand(MoveButton(tasks, id, answer))
    ensures ButtonCommand(DeleteButton(tasks, id, confirmed))
    ensures !EditButton(tasks, id, answer).DoMove? && !DeleteButton(tasks, id, confirmed).DoMove?
  {
  }

  /** With the buttons as the only way in (`ButtonsIssueButtonCommands`),
      every status in the store stays one of the three labels, whatever the
      server answers. */
  lemma ButtonsKeepStatusesValid(v: View, c: Command, outcome: Outcome<()>)
    requires AllStatusesValid(v.tasks) && ButtonCommand(c)
    ensures AllStatusesValid(Run(v, c, outcome).view.tasks)
  {
    match c
    case Idle =>
    case DoEdit(i, t) => EditKeepsStatusesValid(v, i, t, outcome);
    case DoMove(i, st) => MoveKeepsStatusesValid(v, i, st, outcome);
    case DoRemove(i) => RemoveKeepsStatusesValid(v, i, outcome);
  }

  lemma MoveKeepsStatusesValid(v: View, id: int, status: string, outcome: Outcome<()>)
    requires AllStatusesValid(v.tasks) && status in Columns
    ensures AllStatusesValid(Move(v, id, status, outcome).view.tasks)
  {
  }

  lemma EditKeepsStatusesValid(v: View, id: int, title: string, outcome: Outcome<()>)
    requires AllStatusesValid(v.tasks)
    ensures AllStatusesValid(Edit(v, id, title, outcome).view.tasks)
  {
    if HasId(v.tasks, id) {
      var k := FirstIndex(v.tasks, id).value;
      assert v.tasks[k].status in Columns;
    }
  }

  lemma RemoveKeepsStatusesValid(v: View, id: int, outcome: Outcome<()>)
    requires AllStatusesValid(v.tasks)
    ensures AllStatusesValid(Remove(v, id, outcome).view.tasks)
  {
    var after := Remove(v, id, outcome).view.tasks;
    forall i | 0 <= i < |after|
      ensures after[i].status in Columns
    {
      var t := after[i];
      assert t in multiset(after);
      if outcome.Ok? {
        assert multiset(after)[t] == multiset(v.tasks)[t];
      }
      assert t in multiset(v.tasks);
    }
  }

  /** A successful create keeps the statuses valid when the server's record
      has a valid status. */
  lemma CreateKeepsStatusesValid(v: View, outcome: Outcome<Task>)
    requires AllStatusesValid(v.tasks)
    requires outcome.Ok? ==> outcome.body.status in Columns
    ensures AllStatusesValid(Create(v, outcome).view.tasks)
  {
  }

  /** The edit button rejects an empty answer but not a blank one: a
      whitespace-only answer passes the check and is trimmed to an empty
      title. */
  lemma BlankEditAnswerClearsTitle(tasks: seq<Task>, id: int, answer: string)
    requires HasId(tasks, id)
    requires answer != "" && AllWhiteSpace(answer)
    ensures EditButton(tasks, Some(id), Some(answer)) == DoEdit(id, "")
  {
  }

  /** The evidently intended edit button: the answer is checked after
      trimming, so a blank answer asks for nothing. */
  function EditButtonChecked(tasks: seq<Task>, id: Option<int>, answer: Option<string>): (r: Command)
    ensures r.DoEdit? <==> id.Some? && HasId(tasks, id.value) && answer.Some? && !AllWhiteSpace(answer.value)
    ensures r.DoEdit? ==> r.id == id.value && r.title == Trim(answer.value) && r.title != ""
    ensures !r.DoEdit? ==> r == Idle
  {
    if id.None? then Idle
    else
      match Find(tasks, id.value)
      case None => Idle
      case Some(t) =>
        if answer.None? then Idle
        else
          TrimEmptyIff(answer.value);
          if Trim(answer.value) == "" then Idle else DoEdit(t.id, Trim(answer.value))
  }

  /** The evidently intended create: the same checks, but the trimmed title
      (the one the duplicate check compared) is what gets posted. */
  function CreateTrimmed(v: View, outcome: Outcome<Task>): (r: Step)
    ensures Validate(v).Some? ==> r == Step(v, None)
    ensures Validate(v).None? ==> r.sent == Some(Post(Trim(v.input), "To Do"))
    ensures Validate(v).None? && outcome.Ok? ==> r.view == View(v.tasks + [outcome.body], "")
    ensures !outcome.Ok? ==> r.view == v
  {
    if Validate(v).Some? then Step(v, None)
    else
      var sent := Some(Post(Trim(v.input), "To Do"));
      match outcome
      case Ok(task) => Step(View(Append(v.tasks, task), ""), sent)
      case _ => Step(v, sent)
  }

  /** With the trimmed title posted, and a server that stores the title it is
      sent, no two tasks ever share a title. */
  lemma CreateTrimmedKeepsTitlesDistinct(v: View, outcome: Outcome<Task>)
    requires DistinctTitles(v.tasks)
    requires outcome.Ok? ==> outcome.body.title == Trim(v.input)
    ensures DistinctTitles(CreateTrimmed(v, outcome).view.tasks)
  {
  }

  lemma PaddedTrim()
    ensures Trim(" A") == "A"
  {
    assert !Text.IsWhiteSpace('A');
    assert " A"[1..] == "A";
    assert Text.SkipForward(" A", 1) == 1;
    assert Text.SkipForward(" A", 0) == 1;
    assert Text.SkipBackward(" A", 1, 2) == 2;
  }

  /** As written, the duplicate check compares the trimmed input while the
      untrimmed input is posted: a title with surrounding blanks passes the
      check against an identical stored title, and the board ends up with two
      tasks titled " A". */
  lemma UntrimmedPostDuplicates()
    ensures var v := View([Task(1, " A", "To Do")], " A");
            var r := Create(v, Ok(Task(2, " A", "To Do")));
            && r.sent == Some(Post(" A", "To Do"))
            && !DistinctTitles(r.view.tasks)
  {
    var v := View([Task(1, " A", "To Do")], " A");
    PaddedTrim();
    TrimEmptyIff(" A");
    assert v.tasks[0].title != "A";
    assert Validate(v).None?;
    var r := Create(v, Ok(Task(2, " A", "To Do")));
    assert r.view.tasks[0].title == r.view.tasks[1].title;
  }
}

=== FILE: backend.dfy ===
/** The backend's in-memory task list (backend/app.py): create, partial
    update and delete over one module-level list. Each handler is a function
    from the list before the request to either an HTTP error (list unchanged)
    or the list after it together with the response body. */
module Backend {
  import opened Tasks

  /** The HTTP errors the handlers raise, plus the one request parsing raises
      when a status is not one of the three labels. */
  datatype HttpError = BadRequest | NotFound | Unprocessable {
    function Code(): (c: int)
      ensures 400 <= c < 500
    {
      match this
      case BadRequest => 400
      case NotFound => 404
      case Unprocessable => 422
    }
  }

  datatype Result<T> = Ok(value: T) | Err(error: HttpError)

  /** The body of an update: each field may be absent. */
  datatype TaskUpdate = TaskUpdate(title: Option<string>, status: Option<Status>)

  /** A successful handler's new list and the task it reports. */
  datatype Changed = Changed(tasks: seq<Task>, task: Task)

  /** Bounds of the random id drawn on create (upper bound excluded). */
  const MinId: int := 100000
  const MaxId: int := 1000000

  /** The list the server starts with. */
  const InitialTasks: seq<Task> := [Task(1, "Tarea de prueba", "To Do")]

  /** Create: an empty title is refused with 400 and the list is untouched;
      otherwise the task gets the drawn id `newId` and goes at the end. The
      status check of the handler can never fail, since every label is a
      non-empty string. */
  function Create(tasks: seq<Task>, title: string, status: Status, newId: int): (r: Result<Changed>)
    requires MinId <= newId < MaxId
    ensures r.Err? <==> title == ""
    ensures r.Err? ==> r.error == BadRequest
    ensures r.Ok? ==> |r.value.tasks| == |tasks| + 1 && r.value.tasks[..|tasks|] == tasks
    ensures r.Ok? ==> r.value.tasks[|tasks|] == r.value.task
    ensures r.Ok? ==> MinId <= r.value.task.id < MaxId
    ensures r.Ok? ==> r.value.task.title == title && ParseStatus(r.value.task.status) == Some(status)
  {
    if title == "" || status.Label() == "" then Err(BadRequest)
    else
      var task := Task(newId, title, status.Label());
      Ok(Changed(tasks + [task], task))
  }

  /** A task with the fields the update carries overwritten. */
  function Patch(t: Task, u: TaskUpdate): Task {
    var title := match u.title case Some(s) => s case None => t.title;
    var status := match u.status case Some(st) => st.Label() case None => t.status;
    Task(t.id, title, status)
  }

  /** Partial update: the scan stops at the first task carrying `id`, so only
      that one is patched; with no such task the answer is 404. */
  function Update(tasks: seq<Task>, id: int, u: TaskUpdate): (r: Result<Changed>)
    ensures r.Err? <==> !HasId(tasks, id)
    ensures r.Err? ==> r.error == NotFound
    ensures r.Ok? ==> |r.value.tasks| == |tasks|
    ensures r.Ok? ==> exists k :: 0 <= k < |tasks| && tasks[k].id == id
                                  && (forall j :: 0 <= j < k ==> tasks[j].id != id)
                                  && r.value.tasks == tasks[k := r.value.task]
    ensures r.Ok? ==> r.value.task.id == id
    ensures r.Ok? ==> u.title.Some? ==> r.value.task.title == u.title.value
    ensures r.Ok? ==> u.status.Some? ==> r.value.task.status == u.status.value.Label()
  {
    match FirstIndex(tasks, id)
    case None => Err(NotFound)
    case Some(k) =>
      var t := Patch(tasks[k], u);
      Ok(Changed(tasks[k := t], t))
  }

  /** Delete: 404 when no task carries `id`; otherwise every task carrying it
      goes, not only the first. */
  function Delete(tasks: seq<Task>, id: int): (r: Result<seq<Task>>)
    ensures r.Err? <==> !HasId(tasks, id)
    ensures r.Err? ==> r.error == NotFound
    ensures r.Ok? ==> |r.value| < |tasks|
    ensures r.Ok? ==> forall i :: 0 <= i < |r.value| ==> r.value[i].id != id
    ensures r.Ok? ==> forall t: Task :: t.id != id ==> multiset(r.value)[t] == multiset(tasks)[t]
    ensures r.Ok? ==> r.value == Without(tasks, id)
  {
    if HasId(tasks, id) then
      FilterShrinks(tasks, (t: Task) => t.id != id);
      Ok(Without(tasks, id))
    else Err(NotFound)
  }

  /** An update keeps the fields it does not carry: the title when only a
      status is sent, the status when only a title is sent. */
  lemma UpdateKeepsAbsentFields(tasks: seq<Task>, id: int, u: TaskUpdate)
    requires HasId(tasks, id)
    ensures var k := FirstIndex(tasks, id).value;
            var r := Update(tasks, id, u);
            && r.Ok?
            && (u.title.None? ==> r.value.task.title == tasks[k].title)
            && (u.status.None? ==> r.value.task.status == tasks[k].status)
            && (forall i :: 0 <= i < |tasks| && i != k ==> r.value.tasks[i] == tasks[i])
  {
  }

  /** Only the first match changes: any later task with the same id is left
      as it was. */
  lemma UpdateLeavesLaterDuplicates(tasks: seq<Task>, id: int, u: TaskUpdate, i: int, j: int)
    requires 0 <= i < j < |tasks| && tasks[i].id == id && tasks[j].id == id
    ensures Update(tasks, id, u).Ok? && Update(tasks, id, u).value.tasks[j] == tasks[j]
  {
  }

  /** Sending the same update twice has the effect of sending it once. */
  lemma UpdateIdempotent(tasks: seq<Task>, id: int, u: TaskUpdate)
    requires HasId(tasks, id)
    ensures Update(tasks, id, u).Ok?
    ensures Update(Update(tasks, id, u).value.tasks, id, u) == Update(tasks, id, u)
  {
    var k := FirstIndex(tasks, id).value;
    var once := Update(tasks, id, u).value.tasks;
    assert once == tasks[k := Patch(tasks[k], u)];
    assert forall j :: 0 <= j < k ==> once[j] == tasks[j];
    FirstIndexAt(once, id, k);
    var t := Patch(tasks[k], u);
    assert once[k] == t;
    assert Patch(t, u) == t;
    assert once[k := t] == once;
  }

  /** The tasks that survive a delete keep their order: deleting from a
      concatenation deletes from each part. */
  lemma DeleteKeepsOrder(a: seq<Task>, b: seq<Task>, id: int)
    requires HasId(a + b, id)
    ensures Delete(a + b, id).Ok?
    ensures Delete(a + b, id).value == Without(a, id) + Without(b, id)
  {
    WithoutAppend(a, b, id);
  }

  /** Deleting twice: the second request finds nothing and answers 404. */
  lemma DeleteTwiceNotFound(tasks: seq<Task>, id: int)
    requires HasId(tasks, id)
    ensures Delete(Delete(tasks, id).value, id) == Err(NotFound)
  {
  }

  /** Every stored status is one of the three labels: it holds for the initial
      list, and every successful handler keeps it. */
  lemma StatusesStayValid(tasks: seq<Task>, title: string, st: Status, newId: int, id: int, u: TaskUpdate)
    requires MinId <= newId < MaxId
    requires AllStatusesValid(tasks)
    ensures AllStatusesValid(InitialTasks)
    ensures Create(tasks, title, st, newId).Ok? ==> AllStatusesValid(Create(tasks, title, st, newId).value.tasks)
    ensures Update(tasks, id, u).Ok? ==> AllStatusesValid(Update(tasks, id, u).value.tasks)
    ensures Delete(tasks, id).Ok? ==> AllStatusesValid(Delete(tasks, id).value)
  {
  }

  /** Create refuses an empty title, but update stores one: the non-empty
      title rule holds only on the create path. */
  lemma UpdateAcceptsEmptyTitle(tasks: seq<Task>, id: int, st: Status, newId: int)
    requires MinId <= newId < MaxId
    requires HasId(tasks, id)
    ensures Update(tasks, id, TaskUpdate(Some(""), None)).Ok?
    ensures Update(tasks, id, TaskUpdate(Some(""), None)).value.task.title == ""
    ensures Create(tasks, "", st, newId) == Err(BadRequest)
  {
  }
}

=== FILE: client.dfy ===
/** What both frontends share: the client-side cache of the task list, the
    requests it sends, the outcomes a request can have, the pure list updates
    applied after a successful request, and the column view. */
module Client {
  import opened Tasks

  /** The client state an operation reads and writes: the cached list and the
      text of the new-task input. */
  datatype View = View(tasks: seq<Task>, input: string)

  /** The body of a PUT: only a status, or a whole task record. */
  datatype PutBody = StatusPatch(status: string) | WholeTask(task: Task)

  /** The requests the client sends to the task endpoint. */
  datatype Request = Post(title: string, status: string) | Put(id: int, body: PutBody) | Delete(id: int)

  /** How a request ends: a 2xx answer with its parsed body, an answer with
      another status code, or a thrown error (network failure). */
  datatype Outcome<T> = Ok(body: T) | HttpError(code: int) | NetworkError

  /** The state after an operation and the request it sent, if any. */
  datatype Step = Step(view: View, sent: Option<Request>)

  /** The list with the server's record appended (create success). */
  function Append(s: seq<Task>, t: Task): (r: seq<Task>)
    ensures |r| == |s| + 1 && r[..|s|] == s && r[|s|] == t
    ensures multiset(r) == multiset(s) + multiset{t}
  {
    s + [t]
  }

  /** Every task carrying `id` moved to `status`; nothing else changes
      (move success). */
  function SetStatus(s: seq<Task>, id: int, status: string): (r: seq<Task>)
    ensures |r| == |s|
    ensures forall i :: 0 <= i < |s| ==> r[i].id == s[i].id && r[i].title == s[i].title
    ensures forall i :: 0 <= i < |s| ==> r[i].status == if s[i].id == id then status else s[i].status
  {
    Map(s, (t: Task) => if t.id == id then t.(status := status) else t)
  }

  /** Every task carrying `id` replaced by `t`; nothing else changes (edit
      success). */
  function ReplaceMatching(s: seq<Task>, id: int, t: Task): (r: seq<Task>)
    ensures |r| == |s|
    ensures forall i :: 0 <= i < |s| ==> r[i] == if s[i].id == id then t else s[i]
  {
    Map(s, (u: Task) => if u.id == id then t else u)
  }

  /** The tasks shown under column `col`, in list order. */
  function Column(s: seq<Task>, col: string): (r: seq<Task>)
    ensures forall i :: 0 <= i < |r| ==> r[i].status == col
    ensures forall t: Task :: t.status == col ==> multiset(r)[t] == multiset(s)[t]
  {
    Filter(s, (t: Task) => t.status == col)
  }

  /** A column keeps the list's order: the column of a concatenation is the
      concatenation of the columns. */
  lemma ColumnAppend(a: seq<Task>, b: seq<Task>, col: string)
    ensures Column(a + b, col) == Column(a, col) + Column(b, col)
  {
    FilterAppend(a, b, (t: Task) => t.status == col);
  }

  /** The three columns split the list: every task with a valid status is
      shown exactly once, in the column its status names, and the columns hold
      all of it. */
  lemma {:induction false} ColumnsPartition(s: seq<Task>)
    requires AllStatusesValid(s)
    ensures multiset(Column(s, "To Do")) + multiset(Column(s, "Doing")) + multiset(Column(s, "Done")) == multiset(s)
    ensures |Column(s, "To Do")| + |Column(s, "Doing")| + |Column(s, "Done")| == |s|
  {
  }

  /** A task whose status is not a column label is shown in no column. */
  lemma HiddenWhenInvalid(s: seq<Task>, t: Task)
    requires t in s && t.status !in Columns
    ensures forall col :: col in Columns ==> t !in Column(s, col)
  {
  }

  /** A task lands in the column its status names and in no other. */
  lemma ShownInOwnColumn(s: seq<Task>, t: Task, col: string)
    requires t in s
    ensures t in Column(s, col) <==> t.status == col
  {
  }
}

=== FILE: dragdrop.dfy ===
/** The drag-and-drop board (frontend/src/frontend.jsx): create without
    validation, move with an existence check and a whole-record body, edit,
    delete, and a drop handler that only logs. The page renders only cards
    and drop targets, with no input and no button, so create, move, edit and
    delete are unreachable from it and the new-task title stays ""; they are
    modelled as written. Create, edit and delete catch nothing here; a thrown
    error ends the operation before the store is touched, which the model
    states as for any failed outcome. */
module DragDrop {
  import opened Tasks
  import opened Client

  /** Create: whatever is in the input, the empty string included, is posted
      with status "To Do"; on success the server's record is appended and the
      input cleared. */
  function Create(v: View, outcome: Outcome<Task>): (r: Step)
    ensures r.sent == Some(Post(v.input, "To Do"))
    ensures outcome.Ok? ==> r.view.input == "" && |r.view.tasks| == |v.tasks| + 1
                            && r.view.tasks[..|v.tasks|] == v.tasks && r.view.tasks[|v.tasks|] == outcome.body
    ensures !outcome.Ok? ==> r.view == v
  {
    var sent := Some(Post(v.input, "To Do"));
    match outcome
    case Ok(task) => Step(View(Append(v.tasks, task), ""), sent)
    case _ => Step(v, sent)
  }

  /** Move: with no task carrying the id nothing is sent. Otherwise the first
      such task's id and title are sent with the new status, and on success
      every task carrying the id takes the new status. */
  function Move(v: View, id: int, newStatus: string, outcome: Outcome<()>): (r: Step)
    ensures !HasId(v.tasks, id) ==> r == Step(v, None)
    ensures HasId(v.tasks, id) ==>
              var first := v.tasks[FirstIndex(v.tasks, id).value];
              r.sent == Some(Put(id, WholeTask(Task(id, first.title, newStatus))))
    ensures r.view.input == v.input && |r.view.tasks| == |v.tasks|
    ensures outcome.Ok? ==> forall i :: 0 <= i < |v.tasks| ==>
              && r.view.tasks[i].id == v.tasks[i].id
              && r.view.tasks[i].title == v.tasks[i].title
              && r.view.tasks[i].status == (if v.tasks[i].id == id then newStatus else v.tasks[i].status)
    ensures !outcome.Ok? ==> r.view == v
  {
    match Find(v.tasks, id)
    case None => Step(v, None)
    case Some(t) =>
      var sent := Some(Put(id, WholeTask(Task(t.id, t.title, newStatus))));
      if outcome.Ok? then Step(v.(tasks := SetStatus(v.tasks, id, newStatus)), sent)
      else Step(v, sent)
  }

  /** Edit: the same steps as the prompt-driven board's edit. */
  function Edit(v: View, id: int, newTitle: string, outcome: Outcome<()>): (r: Step)
    ensures !HasId(v.tasks, id) ==> r == Step(v, None)
    ensures HasId(v.tasks, id) ==>
              var first := v.tasks[FirstIndex(v.tasks, id).value];
              && r.sent == Some(Put(id, WholeTask(Task(first.id, newTitle, first.status))))
              && (outcome.Ok? ==> |r.view.tasks| == |v.tasks| && forall i :: 0 <= i < |v.tasks| ==>
                    r.view.tasks[i] == if v.tasks[i].id == id then Task(id, newTitle, first.status) else v.tasks[i])
    ensures r.view.input == v.input
    ensures !outcome.Ok? ==> r.view == v
  {
    match Find(v.tasks, id)
    case None => Step(v, None)
    case Some(t) =>
      var edited := t.(title := newTitle);
      var sent := Some(Put(id, WholeTask(edited)));
      if outcome.Ok? then Step(v.(tasks := ReplaceMatching(v.tasks, id, edited)), sent)
      else Step(v, sent)
  }

  /** Delete: always sends; on success every task carrying the id is gone and
      the rest keep their order. */
  function Remove(v: View, id: int, outcome: Outcome<()>): (r: Step)
    ensures r.sent == Some(Delete(id))
    ensures r.view.input == v.input
    ensures outcome.Ok? ==> forall i :: 0 <= i < |r.view.tasks| ==> r.view.tasks[i].id != id
    ensures outcome.Ok? ==> forall t: Task :: t.id != id ==> multiset(r.view.tasks)[t] == multiset(v.tasks)[t]
    ensures outcome.Ok? ==> r.view.tasks == Without(v.tasks, id)
    ensures !outcome.Ok? ==> r.view == v
  {
    var sent := Some(Delete(id));
    if outcome.Ok? then Step(v.(tasks := Without(v.tasks, id)), sent)
    else Step(v, sent)
  }

  /** Dropping the card whose id was carried as `dragged` on column `col`:
      the handler reads the id and, when there is one, logs it; it never
      calls move. */
  function Drop(v: View, dragged: string, col: string): Step {
    Step(v, None)
  }

  /** The defect of the drop handler, stated against move: after a drop the
      dragged task is still outside the target column, whereas a successful
      move would have put it there. */
  lemma DropDoesNotMove(v: View, id: int, dragged: string, col: string, t: Task)
    requires t in v.tasks && t.id == id && t.status != col
    ensures var after := Drop(v, dragged, col).view.tasks;
            after == v.tasks && t !in Column(after, col)
    ensures var moved := Move(v, id, col, Ok(())).view.tasks;
            t.(status := col) in Column(moved, col)
  {
  }

  /** Without validation, move can store a status that is not a column label,
      and the task then disappears from all three columns. */
  lemma MoveCanHideTask(v: View, id: int, bad: string)
    requires HasId(v.tasks, id) && bad !in Columns
    ensures var moved := Move(v, id, bad, Ok(())).view.tasks;
            exists t :: t in moved && t.id == id && forall col :: col in Columns ==> t !in Column(moved, col)
  {
  }
}

=== FILE: tasks.dfy ===
/** The task record shared by the backend and both frontends, the three board
    columns, and the sequence combinators (filter, map, first match) that every
    operation on a task list is built from. */
module Tasks {

  datatype Option<T> = None | Some(value: T)

  /** The three columns of the board. The backend's StatusEnum is a `str`
      enum, so a stored status is the label string itself. */
  datatype Status = ToDo | Doing | Done {
    function Label(): (s: string)
      ensures s in Columns
      ensures |s| > 0
    {
      match this
      case ToDo => "To Do"
      case Doing => "Doing"
      case Done => "Done"
    }
  }

  /** The column headers, in display order. */
  const Columns: seq<string> := ["To Do", "Doing", "Done"]

  /** Reading a status label, as the backend's request parsing does: only the
      three labels are accepted. */
  function ParseStatus(s: string): (r: Option<Status>)
    ensures r.Some? <==> s in Columns
    ensures r.Some? ==> r.value.Label() == s
  {
    if s == "To Do" then Some(ToDo)
    else if s == "Doing" then Some(Doing)
    else if s == "Done" then Some(Done)
    else None
  }

  lemma ParseLabel(st: Status)
    ensures ParseStatus(st.Label()) == Some(st)
  {
  }

  /** A task as both sides see it: server-assigned id, title, column. */
  datatype Task = Task(id: int, title: string, status: string)

  predicate HasId(s: seq<Task>, id: int) {
    exists i :: 0 <= i < |s| && s[i].id == id
  }

  predicate UniqueIds(s: seq<Task>) {
    forall i, j :: 0 <= i < j < |s| ==> s[i].id != s[j].id
  }

  predicate AllStatusesValid(s: seq<Task>) {
    forall i :: 0 <= i < |s| ==> s[i].status in Columns
  }

  predicate DistinctTitles(s: seq<Task>) {
    forall i, j :: 0 <= i < j < |s| ==> s[i].title != s[j].title
  }

  /** Index of the first task carrying `id`: the task a forward scan that stops
      at the first hit reaches. */
  function FirstIndex(s: seq<Task>, id: int): (r: Option<nat>)
    ensures r.None? <==> !HasId(s, id)
    ensures r.Some? ==> r.value < |s| && s[r.value].id == id
    ensures r.Some? ==> forall j :: 0 <= j < r.value ==> s[j].id != id
  {
    if |s| == 0 then None
    else if s[0].id == id then Some(0)
    else
      match FirstIndex(s[1..], id)
      case None => None
      case Some(k) => Some(k + 1)
  }

  /** The first index is pinned down by its two defining facts. */
  lemma {:induction false} FirstIndexAt(s: seq<Task>, id: int, k: nat)
    requires k < |s| && s[k].id == id
    requires forall j :: 0 <= j < k ==> s[j].id != id
    ensures FirstIndex(s, id) == Some(k)
  {
  }

  /** The first task carrying `id`, as `Array.prototype.find` returns it. */
  function Find(s: seq<Task>, id: int): (r: Option<Task>)
    ensures r.None? <==> !HasId(s, id)
    ensures r.Some? ==> r.value in s && r.value.id == id
    ensures r.Some? ==> exists i :: 0 <= i < |s| && s[i] == r.value && forall j :: 0 <= j < i ==> s[j].id != id
  {
    match FirstIndex(s, id)
    case None => None
    case Some(k) => Some(s[k])
  }

  /** The elements of `s` satisfying `p`, in their original order. */
  function Filter<T(==,!new)>(s: seq<T>, p: T -> bool): (r: seq<T>)
    ensures |r| <= |s|
    ensures forall i :: 0 <= i < |r| ==> p(r[i])
    ensures forall x :: multiset(r)[x] == if p(x) then multiset(s)[x] else 0
  {
    if |s| == 0 then []
    else
      assert s == [s[0]] + s[1..];
      if p(s[0]) then [s[0]] + Filter(s[1..], p) else Filter(s[1..], p)
  }

  /** Filtering distributes over concatenation: what survives keeps its order. */
  lemma {:induction false} FilterAppend<T(!new)>(a: seq<T>, b: seq<T>, p: T -> bool)
    ensures Filter(a + b, p) == Filter(a, p) + Filter(b, p)
  {
    if |a| == 0 {
      assert a + b == b;
    } else {
      assert (a + b)[0] == a[0];
      assert (a + b)[1..] == a[1..] + b;
      FilterAppend(a[1..], b, p);
    }
  }

  /** A filter that every element passes returns its input. */
  lemma {:induction false} FilterAllPass<T(!new)>(s: seq<T>, p: T -> bool)
    requires forall i :: 0 <= i < |s| ==> p(s[i])
    ensures Filter(s, p) == s
  {
    if |s| > 0 {
      FilterAllPass(s[1..], p);
    }
  }

  /** The filter drops something exactly when some element fails the test. */
  lemma {:induction false} FilterShrinks<T(!new)>(s: seq<T>, p: T -> bool)
    ensures |Filter(s, p)| == |s| <==> forall i :: 0 <= i < |s| ==> p(s[i])
  {
    if |s| > 0 {
      var rest := s[1..];
      FilterShrinks(rest, p);
      if p(s[0]) {
        assert |Filter(s, p)| == 1 + |Filter(rest, p)|;
        if forall i :: 0 <= i < |rest| ==> p(rest[i]) {
          forall i | 0 <= i < |s| ensures p(s[i]) {
            if i > 0 { assert s[i] == rest[i - 1]; }
          }
        } else {
          var j :| 0 <= j < |rest| && !p(rest[j]);
          assert s[j + 1] == rest[j];
        }
      } else {
        assert |Filter(s, p)| == |Filter(rest, p)| <= |rest|;
      }
    }
  }

  /** `f` applied to every element, positions kept. */
  function Map<T, U>(s: seq<T>, f: T -> U): (r: seq<U>)
    ensures |r| == |s|
    ensures forall i :: 0 <= i < |s| ==> r[i] == f(s[i])
  {
    if |s| == 0 then [] else [f(s[0])] + Map(s[1..], f)
  }

  /** The list without any task carrying `id`: the backend's list
      comprehension on delete and the client's filter on delete alike. */
  function Without(s: seq<Task>, id: int): (r: seq<Task>)
    ensures forall i :: 0 <= i < |r| ==> r[i].id != id
    ensures forall t: Task :: t.id != id ==> multiset(r)[t] == multiset(s)[t]
    ensures !HasId(s, id) <==> r == s
  {
    var keep := (t: Task) => t.id != id;
    FilterShrinks(s, keep);
    if HasId(s, id) then Filter(s, keep)
    else (FilterAllPass(s, keep); Filter(s, keep))
  }

  /** Removing by id keeps every other task and its relative order. */
  lemma WithoutAppend(a: seq<Task>, b: seq<Task>, id: int)
    ensures Without(a + b, id) == Without(a, id) + Without(b, id)
  {
    FilterAppend(a, b, (t: Task) => t.id != id);
  }

  lemma WithoutIdempotent(s: seq<Task>, id: int)
    ensures Without(Without(s, id), id) == Without(s, id)
  {
  }
}

=== FILE: text.dfy ===
/** JavaScript's `String.prototype.trim`, which the create form and the edit
    button apply to typed titles: it strips white space and line terminators
    (section 22.1.3.32 of ECMA-262, with the character classes of sections
    12.2 and 12.3) from both ends. */
module Text {

  /** ECMAScript WhiteSpace or LineTerminator: tab, vertical tab, form feed,
      space, no-break space, byte order mark, the other Unicode space
      separators, line feed, carriage return, line and paragraph separator. */
  predicate IsWhiteSpace(c: char) {
    || c == '\t' || c == '\n' || c == '\U{000B}' || c == '\U{000C}' || c == '\r'
    || c == ' ' || c == '\U{00A0}' || c == '\U{1680}'
    || ('\U{2000}' <= c <= '\U{200A}')
    || c == '\U{2028}' || c == '\U{2029}' || c == '\U{202F}' || c == '\U{205F}'
    || c == '\U{3000}' || c == '\U{FEFF}'
  }

  predicate AllWhiteSpace(s: string) {
    forall i :: 0 <= i < |s| ==> IsWhiteSpace(s[i])
  }

  /** The first position at or after `from` that does not hold white space,
      or `|s|` when there is none. */
  function SkipForward(s: string, from: nat): (n: nat)
    requires from <= |s|
    ensures from <= n <= |s|
    ensures forall k :: from <= k < n ==> IsWhiteSpace(s[k])
    ensures n == |s| || !IsWhiteSpace(s[n])
    decreases |s| - from
  {
    if from < |s| && IsWhiteSpace(s[from]) then SkipForward(s, from + 1) else from
  }

  /** The end of `s[lo..end]` once its trailing white space is cut off: the
      position after the last character before `end` that is not white
      space, or `lo` when there is none. */
  function SkipBackward(s: string, lo: nat, end: nat): (n: nat)
    requires lo <= end <= |s|
    ensures lo <= n <= end
    ensures forall k :: n <= k < end ==> IsWhiteSpace(s[k])
    ensures n == lo || !IsWhiteSpace(s[n - 1])
    decreases end
  {
    if lo < end && IsWhiteSpace(s[end - 1]) then SkipBackward(s, lo, end - 1) else end
  }

  /** `r` is the piece of `s` that starts at `lo`, and everything of `s`
      before and after it is white space. */
  predicate CutAt(s: string, r: string, lo: int) {
    0 <= lo <= |s| - |r| && r == s[lo..lo + |r|]
    && AllWhiteSpace(s[..lo]) && AllWhiteSpace(s[lo + |r|..])
  }

  /** `s` without white space at either end: a contiguous piece of `s` that
      starts and ends with a non-white-space character, and everything cut
      away is white space. */
  function Trim(s: string): (r: string)
    ensures exists lo :: CutAt(s, r, lo)
    ensures r == [] || (!IsWhiteSpace(r[0]) && !IsWhiteSpace(r[|r| - 1]))
  {
    var lo := SkipForward(s, 0);
    var hi := SkipBackward(s, lo, |s|);
    assert CutAt(s, s[lo..hi], lo);
    s[lo..hi]
  }

  /** A title trims to nothing exactly when it is all white space. */
  lemma TrimEmptyIff(s: string)
    ensures Trim(s) == [] <==> AllWhiteSpace(s)
  {
  }

  /** A string without white space at its ends is its own trim. */
  lemma {:induction false} TrimFixed(s: string)
    requires s == [] || (!IsWhiteSpace(s[0]) && !IsWhiteSpace(s[|s| - 1]))
    ensures Trim(s) == s
  {
  }

  /** Trimming twice is trimming once. */
  lemma TrimIdempotent(s: string)
    ensures Trim(Trim(s)) == Trim(s)
  {
    TrimFixed(Trim(s));
  }
}
